=== FILE: README.md ===
# Tetris board: a Dafny model

This project models the core of a small Tetris prototype: the game board and
the view model that mirrors it on screen.

- The board (`Models.GameBoard`) holds a 10 x 20 grid of optional colours
  (`cells`, an `array2<Option<Color>>`), the falling piece and the position of
  its 4 x 4 box.
- A shift of the piece (`ShiftCurrentPiece`) runs in two loops over the
  16 mask indices. The first clears the cells the piece covers. Then the
  position moves by (dx, dy). The second repaints the whole box at the new
  position: masked cells get the piece colour and the other cells of the box
  become empty.
- Every write goes through `SetCell`. It skips targets off the board and
  records a `CellChange` only when the cell's value actually changes. One
  shift returns exactly one batch: first the clearing changes, each naming a
  distinct cell of the old footprint, then the painting changes, each naming
  a distinct cell of the new box (`ShiftBatch`).
- Key presses map Left, Right and Down to shifts of (-1, 0), (1, 0) and
  (0, -1). `StartCycle` is one pass of the game loop: it spawns the J-shaped
  dark-blue piece at (5, 18) and shifts it down 18 times, to row 0.
- The view model (`ViewModels.GameBoardViewModel`) keeps one `CellViewModel`
  per board cell in a flat array at slot x + 10 * y. Cell (x, y) is drawn at
  pixel (21 x, 21 (20 - y)). The view applies each batch slot by slot and
  shows an empty cell as dark gray.

A pass of the game loop is proved against a closed form, `Models.FallenValue`.
The piece's box at (5, 0) is painted, the cells of columns 5 to 8 above it are
empty, and every other cell keeps its value. `FallCycle` derives this from the
chain of shifts that `StartCycle` records.

Replaying a batch is `Models.ValueAfter`: a cell's value after the batch's
changes are applied in order, where the last change to the cell wins.
`ViewModels.ViewAfter` is the same for a view slot. The central property is
the mirror invariant `GameBoardViewModel.Mirrors()`. It holds after
construction, and applying the batch of each shift keeps it. This relies on
the board naming only board cells, because the view does no bounds check
of its own (`OffBoardChangeAliases`).

Two behaviours of a shift are easy to miss:

- A shift by (0, 0) is not a no-op. The code clears the footprint and then
  repaints it, and records both steps. Every coloured footprint cell is
  reported as cleared, even when it is repainted (`ShiftCurrentPiece`), so
  the batch is not empty whenever the footprint holds a colour on the board.
- A shift does not leave the other cells of the new box alone. Every
  unmasked cell of the new box is set to empty, so settled colours there
  are wiped.

The two loops of `ShiftCurrentPiece` are modelled as two methods,
`ClearFootprint` and `PaintBox`. They thread the same `changes` list that
the source's local `SetCell` appends to. A ghost snapshot of the board
(`Snapshot`, a helper) states what the list replays to. The predicate
`Shifted` states the board a shift leaves, in terms of the board before it.
The do-while loop of the game loop is written as a `while` whose test also
admits the first pass.

Colours are ARGB values compared only by equality. The named colours are the
framework's Red, Cyan, Yellow, DarkBlue and DarkGray.

## Model

| member | source | states |
|---|---|---|
| Models.KeyShift | Tetris/Models/GameBoard.cs:43-57 | Left, Right and Down ask for shifts (-1, 0), (1, 0), (0, -1) (a unit step, never upward); every other key asks for none |
| Models.GetNewPiece | Tetris/Models/GameBoard.cs:139-148 | the spawned piece has 16 mask entries, set exactly at indices 0, 4, 8 and 9, and colour DarkBlue |
| Models.JShape | Tetris/Models/GameBoard.cs:141-147 | painted at origin o, that piece colours (o.x, o.y..o.y+2) and (o.x+1, o.y+2) dark blue and empties the rest of its box |
| Models.BoxCell | Tetris/Models/GameBoard.cs:119-120 | mask index i names the cell (x + i % 4, y + i / 4) of the box, and it is the only cell of the box with that index |
| Models.ValueAfterUntouched | Tetris/Models/GameBoard.cs:105-109 | a cell that no change names keeps its value after replay |
| Models.ValueAfterLastWins | Tetris/Models/GameBoard.cs:105-109 | the last change that names a cell decides its replayed value |
| Models.ChangedCellIsReported | Tetris/Models/GameBoard.cs:105-109 | a cell whose value the replay changes is named by a change carrying its new value |
| Models.EffectiveSnoc | Tetris/Models/GameBoard.cs:105-108 | appending a change that differs from its cell's current value keeps every change of the batch effective |
| Models.ValueAfterConcat | Tetris/Models/GameBoard.cs:88-92 | replaying two successive batches equals replaying their concatenation |
| Models.FlattenReplays | Tetris/Models/GameBoard.cs:88-92 | when each batch of a run of shifts replays the board before it to the board after it, all the batches together, in emission order, replay the first board to the last |
| Models.FallStart | Tetris/Models/GameBoard.cs:85-90 | the first shift from the spawn at (5, 18) to (5, 17) only paints the box at (5, 17): the spawned footprint lies inside that box, and every other cell is kept |
| Models.FallStep | Tetris/Models/GameBoard.cs:88-92 | a board on which the piece has fallen to row r, shifted once more down, is the board on which it has fallen to row r - 1 (box painted one row lower, columns 5 to 8 above it empty, the rest kept) |
| Models.FallChainAt | Tetris/Models/GameBoard.cs:88-92 | in a chain of downward shifts, shift k moves the piece from (5, 18 - k) to (5, 17 - k) and changes the board exactly as a shift does |
| Models.FallCycle | Tetris/Models/GameBoard.cs:84-93 | after the 18 downward shifts from the spawn, the piece's box at (5, 0) is painted, the cells of columns 5 to 8 above row 3 are empty, and every cell outside columns 5 to 8 is as before the pass |
| Models.GameBoard.constructor | Tetris/Models/GameBoard.cs:20-29 | cells (0,0), (1,0), (2,0), (3,0) hold Red, Cyan, Yellow, Red and every other cell is empty; no piece yet, position (5, 15) |
| Models.GameBoard.SetCell | Tetris/Models/GameBoard.cs:100-110 | an off-board target neither changes the grid nor records anything; a change is recorded iff the new value differs, and it carries the new value; no other cell changes; replay and effectiveness of the list are kept |
| Models.ShiftBatchFootprint | Tetris/Models/GameBoard.cs:112-134 | a batch made of a clear phase and a paint phase names only board cells of the old footprint or the new box |
| Models.GameBoard.ClearFootprint | Tetris/Models/GameBoard.cs:112-122 | every covered board cell becomes empty and nothing else changes; the recorded changes all set a covered board cell to empty, no two of them name the same cell, and they replay the board |
| Models.GameBoard.PaintBox | Tetris/Models/GameBoard.cs:128-134 | every board cell of the new box holds the piece colour if masked, else empty; nothing else changes; the incoming changes stay an unchanged prefix, and each appended change names a distinct board cell of the new box |
| Models.GameBoard.ShiftCurrentPiece | Tetris/Models/GameBoard.cs:96-137 | the position moves by (dx, dy); the new board is Shifted from the old one (new box painted, the rest of the old footprint cleared, every other cell unchanged); the one batch is a clear phase (empties of distinct old-footprint cells) followed by a paint phase (distinct new-box cells), reports every coloured cell of the old footprint as cleared (`ReportsClears`), replays the old board to the new one, and holds only effective changes |
| Models.GameBoard.HandleKeyPress | Tetris/Models/GameBoard.cs:43-57 | an arrow key moves the piece by its delta, leaves the board Shifted from the old one, and emits one batch of effective changes, a clear phase then a paint phase, naming only footprint or box cells, reporting every coloured cell of the old footprint as cleared, and replaying to the new board; any other key changes nothing and emits no batch |
| Models.GameBoard.StartCycle | Tetris/Models/GameBoard.cs:80-94 | spawns GetNewPiece and makes exactly 18 shifts, shift k from (5, 18 - k) down to (5, 17 - k) with the ghost boards around it, each batch replaying the board before it to the board after it and being a clear phase of the footprint at (5, 18 - k) followed by a paint phase of the box at (5, 17 - k), and reporting every coloured cell of that footprint on boards[k] as cleared (`FallClears`); all batches in order replay the old board to the new one, which is the fallen board of FallCycle |
| Models.FallBatchOnBoard | Tetris/Models/GameBoard.cs:88-92 | batch k of a pass names only board cells of the footprint at (5, 18 - k) or the box at (5, 17 - k) |
| ViewModels.CellIndex | Tetris/ViewModels/GameBoardViewModel.cs:46-49 | for a board cell the slot x + 10 y lies in [0, 200) and gives back x as slot % 10 and y as slot / 10 (injective) |
| ViewModels.CellIndexOnto | Tetris/ViewModels/GameBoardViewModel.cs:23 | every slot of the 200-slot array is the slot of exactly one board cell |
| ViewModels.LayoutSeparatesCells | Tetris/ViewModels/GameBoardViewModel.cs:50-52 | a board cell is placed at (21 x, 21 (20 - y)), so X lies in [0, 189] and Y in [21, 420]; distinct cells get disjoint 20 x 20 squares, and a higher row gets a smaller Y |
| ViewModels.ViewAfterUntouched | Tetris/ViewModels/GameBoardViewModel.cs:36-42 | a slot that no change of the batch names keeps its colour |
| ViewModels.ViewAfterLastWins | Tetris/ViewModels/GameBoardViewModel.cs:36-42 | the last change naming a slot decides its colour, dark gray for empty |
| ViewModels.OffBoardChangeAliases | Tetris/ViewModels/GameBoardViewModel.cs:40 | an off-board change (10, 0) lands on the slot of (0, 1), which the board replay leaves empty |
| ViewModels.MirrorStep | Tetris/ViewModels/GameBoardViewModel.cs:36-42 | for a batch of board cells, the view slot of (x, y) after the batch shows the board value that replaying the batch gives |
| ViewModels.CellViewModel.constructor | Tetris/ViewModels/GameBoardViewModel.cs:73-78 | a new view cell has the given pixel position, colour DarkGray and no notification |
| ViewModels.CellViewModel.SetColor | Tetris/ViewModels/GameBoardViewModel.cs:83-92 | setting the current colour changes nothing; another colour is stored and notified exactly once |
| ViewModels.GameBoardViewModel.constructor | Tetris/ViewModels/GameBoardViewModel.cs:25-34 | a newly allocated board, board array, slot array and set of view cells; the board holds the four seed cells of row 0, and the view mirrors it: Red, Cyan, Yellow, Red at the left of row 0 and dark gray everywhere else |
| ViewModels.GameBoardViewModel.CreateCellViewModels | Tetris/ViewModels/GameBoardViewModel.cs:44-60 | every slot is filled with its own distinct, newly created view cell, placed at (21 x, 21 (20 - y)) and showing the board cell's colour or DarkGray |
| ViewModels.GameBoardViewModel.OnCellModelChanges | Tetris/ViewModels/GameBoardViewModel.cs:36-42 | every slot shows the colour its last change in the batch gives (DarkGray for empty), and untouched slots keep theirs |
| ViewModels.GameBoardViewModel.KeyPressed | Tetris/ViewModels/GameBoardViewModel.cs:29-33 | an arrow key moves the piece by its delta and leaves the board Shifted; any other key changes neither position nor cells; either way, once the batch is applied, the view still mirrors the board |
| ViewModels.GameBoardViewModel.StartCycle | Tetris/ViewModels/GameBoardViewModel.cs:28-33 | after one game-loop pass, the board is the fallen board of FallCycle, and with every batch applied in order the view still mirrors it |

## Left out

- The publish/subscribe plumbing (`Subject`, `AsObservable`, `Subscribe`) is left out. A shift returns its batch as a value. The view model's `KeyPressed` and `StartCycle` apply each batch, in emission order, right after the board call. In `StartCycle` the batches are applied after the pass rather than during it. The end state is the same, and the loop invariant states the view after each batch.
- The asynchronous loop is left out: `async`, `Task.Delay` and the unbounded outer `while (true)`. `StartCycle` is one pass of that loop, with the delays removed.
- Key presses that arrive between timer ticks are left out, because that is concurrency. `HandleKeyPress` is an ordinary sequential call.
- `ReactiveCommand` and the parsing of key names with `Enum.Parse` are left out. A key is the datatype `Key`, in which every key other than Left, Right and Down is `Other`.
- Raising `PropertyChanged` is modelled only as a counter of notifications on each view cell. Event dispatch to handlers is left out.
- `GameBoard.HandleKeyPress`: a press of Left, Right or Down before `Start` has run would hit a null piece in the source. The model requires a piece for those keys instead of modelling the exception.
- OnCellModelChanges: a change whose slot x + 10 * y falls outside the 200 slots makes the source throw an index-out-of-range exception. The model requires every slot to be in range instead. Batches from the board name board cells only, so they never reach that case.
- The nested `Cell` class and its `State` enum are unused by the code and are left out.
- The internals of the framework's colour type are left out. A colour is four channel bytes compared by equality.
- Positions are unbounded integers, with no 32-bit wrap-around. A cycle moves the piece by at most 18 rows, far from overflow.
- The read-only collection wrapper that `CreateCellViewModels` returns is left out. The view model exposes the cell array itself.
- The public setters of `CellViewModel.X` and `Y` are left out, because nothing calls them. The model keeps the layout fixed after construction.
- `SolidColorBrushConverter` and the window bootstrap in `MainWindow` are left out. They are presentation adapters with no logic of the board.

=== FILE: colors.dfy ===
/** The Option wrapper used for the board's nullable colours (`Color?`). */
module Wrappers {

  datatype Option<+T> = None | Some(value: T)
}

/**
 * Colours as the board and the view use them: values compared only by
 * equality. A colour is written as its four ARGB channels so that the named
 * colours below are distinct values; nothing in the model looks inside one.
 */
module Colors {

  newtype Byte = b: int | 0 <= b < 256

  datatype Color = Argb(a: Byte, r: Byte, g: Byte, b: Byte)

  const Red := Argb(0xFF, 0xFF, 0x00, 0x00)
  const Cyan := Argb(0xFF, 0x00, 0xFF, 0xFF)
  const Yellow := Argb(0xFF, 0xFF, 0xFF, 0x00)
  const DarkBlue := Argb(0xFF, 0x00, 0x00, 0x8B)
  const DarkGray := Argb(0xFF, 0xA9, 0xA9, 0xA9)
}

=== FILE: game_board.dfy ===
/**
 * The board of the Tetris prototype: a 10 x 20 grid of optional colours, the
 * falling piece and its position, and the batches of cell changes that every
 * shift of the piece emits for the presentation layer.
 */
module Models {

  import opened Wrappers
  import opened Colors

  const BoardSizeX := 10
  const BoardSizeY := 20

  /** A board coordinate (the origin of a piece's 4 x 4 box, or a cell). */
  datatype Pos = Pos(x: int, y: int)

  /** A shift of the current piece by (dx, dy). */
  datatype Movement = Movement(dx: int, dy: int)

  /** The keys the board reacts to; every other key is `Other`. */
  datatype Key = Left | Right | Down | Other(code: int)

  /**
   * A piece: a row-major 4 x 4 occupancy mask (index i is column i % 4 of
   * row i / 4 of the box) and the colour of its occupied cells.
   */
  datatype Piece = Piece(mask: seq<bool>, color: Color) {
    /** A shift reads mask indices 0 to 15. */
    predicate Valid() {
      |mask| >= 16
    }
  }

  /** One cell's new value. */
  datatype CellChange = CellChange(x: int, y: int, color: Option<Color>)

  /** The ordered batch of changes that one shift emits. */
  type CellChanges = seq<CellChange>

  predicate InBounds(x: int, y: int) {
    0 <= x < BoardSizeX && 0 <= y < BoardSizeY
  }

  // ---------------------------------------------------------------------
  // The geometry of a piece's 4 x 4 box

  /** Cell (x, y) lies in the 4 x 4 box whose lower-left corner is origin. */
  predicate InBox(origin: Pos, x: int, y: int) {
    origin.x <= x < origin.x + 4 && origin.y <= y < origin.y + 4
  }

  /** The mask index of cell (x, y) within the box at origin. */
  function BoxIndex(origin: Pos, x: int, y: int): int {
    (x - origin.x) + 4 * (y - origin.y)
  }

  /** The board cell that mask index i denotes in the box at origin. */
  function BoxCell(origin: Pos, i: int): (cell: Pos)
    requires 0 <= i < 16
    ensures InBox(origin, cell.x, cell.y) && BoxIndex(origin, cell.x, cell.y) == i
    ensures forall x, y | InBox(origin, x, y) && BoxIndex(origin, x, y) == i :: x == cell.x && y == cell.y
  {
    Pos(origin.x + i % 4, origin.y + i / 4)
  }

  /** The piece at origin occupies cell (x, y): the cell is in its box and masked. */
  predicate Covers(p: Piece, origin: Pos, x: int, y: int)
    requires p.Valid()
  {
    InBox(origin, x, y) && p.mask[BoxIndex(origin, x, y)]
  }

  /** What a shift paints at mask index i: the piece colour, or empty. */
  function Paint(p: Piece, i: int): Option<Color>
    requires p.Valid() && 0 <= i < 16
  {
    if p.mask[i] then Some(p.color) else None
  }

  // ---------------------------------------------------------------------
  // Replaying batches

  /**
   * The value cell (x, y) holds after the changes of batch are applied in
   * order to a board on which it held `before`: the last change to that
   * cell wins.
   */
  function ValueAfter(batch: CellChanges, x: int, y: int, before: Option<Color>): Option<Color>
    decreases |batch|
  {
    if batch == [] then before
    else
      var last := batch[|batch| - 1];
      if last.x == x && last.y == y then last.color
      else ValueAfter(batch[..|batch| - 1], x, y, before)
  }

  /** Appending one change: only its own cell sees it. */
  lemma ValueAfterSnoc(batch: CellChanges, c: CellChange)
    ensures forall x, y, v :: ValueAfter(batch + [c], x, y, v)
                              == if c.x == x && c.y == y then c.color else ValueAfter(batch, x, y, v)
    ensures forall k | 0 <= k <= |batch| :: (batch + [c])[..k] == batch[..k]
  {
    assert (batch + [c])[..|batch|] == batch;
  }

  /** A cell that no change of the batch names keeps its value. */
  lemma {:induction false} ValueAfterUntouched(batch: CellChanges, x: int, y: int, before: Option<Color>)
    requires forall c | c in batch :: c.x != x || c.y != y
    ensures ValueAfter(batch, x, y, before) == before
    decreases |batch|
  {
    if batch != [] {
      assert batch[|batch| - 1] in batch;
      ValueAfterUntouched(batch[..|batch| - 1], x, y, before);
    }
  }

  /** The last change that names a cell decides its value. */
  lemma {:induction false} ValueAfterLastWins(batch: CellChanges, i: int, before: Option<Color>)
    requires 0 <= i < |batch|
    requires forall j | i < j < |batch| :: batch[j].x != batch[i].x || batch[j].y != batch[i].y
    ensures ValueAfter(batch, batch[i].x, batch[i].y, before) == batch[i].color
    decreases |batch|
  {
    if i < |batch| - 1 {
      var init := batch[..|batch| - 1];
      assert init[i] == batch[i];
      ValueAfterLastWins(init, i, before);
    }
  }

  /** A cell whose value the batch changes is named by a change that carries its new value. */
  lemma {:induction false} ChangedCellIsReported(batch: CellChanges, x: int, y: int, before: Option<Color>)
    requires ValueAfter(batch, x, y, before) != before
    ensures CellChange(x, y, ValueAfter(batch, x, y, before)) in batch
    decreases |batch|
  {
    var last := batch[|batch| - 1];
    if last.x == x && last.y == y {
      assert last == CellChange(x, y, ValueAfter(batch, x, y, before));
    } else {
      var init := batch[..|batch| - 1];
      ChangedCellIsReported(init, x, y, before);
      assert forall c | c in init :: c in batch;
    }
  }

  /** Replaying two batches one after the other is replaying their concatenation. */
  lemma {:induction false} ValueAfterConcat(first: CellChanges, second: CellChanges, x: int, y: int, before: Option<Color>)
    ensures ValueAfter(first + second, x, y, before) == ValueAfter(second, x, y, ValueAfter(first, x, y, before))
    decreases |second|
  {
    if second == [] {
      assert first + second == first;
    } else {
      var init := second[..|second| - 1];
      var last := second[|second| - 1];
      assert second == init + [last];
      assert first + second == (first + init) + [last];
      ValueAfterSnoc(first + init, last);
      ValueAfterSnoc(init, last);
      ValueAfterConcat(first, init, x, y, before);
    }
  }

  /** A whole board as a value, indexed [x][y]. */
  type Grid = seq<seq<Option<Color>>>

  predicate WellSized(g: Grid) {
    |g| == BoardSizeX && forall x | 0 <= x < |g| :: |g[x]| == BoardSizeY
  }

  /**
   * Every change of the batch names a board cell and differs from the value
   * that cell holds just before it, when the batch is replayed on `before`.
   */
  predicate Effective(before: Grid, batch: CellChanges)
    requires WellSized(before)
  {
    forall k | 0 <= k < |batch| ::
      InBounds(batch[k].x, batch[k].y) &&
      batch[k].color != ValueAfter(batch[..k], batch[k].x, batch[k].y, before[batch[k].x][batch[k].y])
  }

  /** Appending a change that differs from its cell's current value keeps a batch effective. */
  lemma EffectiveSnoc(before: Grid, batch: CellChanges, c: CellChange)
    requires WellSized(before) && Effective(before, batch) && InBounds(c.x, c.y)
    requires c.color != ValueAfter(batch, c.x, c.y, before[c.x][c.y])
    ensures Effective(before, batch + [c])
  {
    ValueAfterSnoc(batch, c);
  }

  /** Replaying batch on the board `before` gives the board `after`. */
  ghost predicate Replayed(before: Grid, batch: CellChanges, after: Grid)
    requires WellSized(before) && WellSized(after)
  {
    forall x, y | InBounds(x, y) :: after[x][y] == ValueAfter(batch, x, y, before[x][y])
  }

  /**
   * The board `after` is `before` once piece p has shifted from `from` to
   * `to`: its whole box at `to` is painted (masked cells in its colour, the
   * others empty), the rest of its footprint at `from` is empty, and every
   * other cell is as it was.
   */
  ghost predicate Shifted(before: Grid, after: Grid, p: Piece, from: Pos, to: Pos)
    requires WellSized(before) && WellSized(after) && p.Valid()
  {
    forall x, y | InBounds(x, y) ::
      after[x][y] == if InBox(to, x, y) then Paint(p, BoxIndex(to, x, y))
                     else if Covers(p, from, x, y) then None
                     else before[x][y]
  }

  /** Changes c and d name the same cell. */
  predicate SameCell(c: CellChange, d: CellChange) {
    c.x == d.x && c.y == d.y
  }

  /**
   * Entries 0 to n - 1 of a batch set distinct board cells of p's footprint
   * at `from` to empty, each at a mask index below `bound`.
   */
  ghost predicate ClearPhase(batch: CellChanges, n: int, p: Piece, from: Pos, bound: int)
    requires p.Valid() && 0 <= n <= |batch|
  {
    && (forall k | 0 <= k < n ::
          && batch[k].color == None && InBounds(batch[k].x, batch[k].y)
          && Covers(p, from, batch[k].x, batch[k].y) && BoxIndex(from, batch[k].x, batch[k].y) < bound)
    && (forall j, k | 0 <= j < k < n :: !SameCell(batch[j], batch[k]))
  }

  /**
   * Entries n onwards of a batch name distinct board cells of the box at
   * `to`, each at a mask index below `bound`.
   */
  ghost predicate PaintPhase(batch: CellChanges, n: int, to: Pos, bound: int)
    requires 0 <= n <= |batch|
  {
    && (forall k | n <= k < |batch| ::
          InBounds(batch[k].x, batch[k].y) && InBox(to, batch[k].x, batch[k].y) && BoxIndex(to, batch[k].x, batch[k].y) < bound)
    && (forall j, k | n <= j < k < |batch| :: !SameCell(batch[j], batch[k]))
  }

  /**
   * The shape of one shift's batch, split at n: the clear phase batch[..n]
   * sets distinct board cells of the footprint at `from` to empty, and the
   * paint phase batch[n..] names distinct board cells of the box at `to`.
   */
  ghost predicate ShiftBatch(batch: CellChanges, n: int, p: Piece, from: Pos, to: Pos)
    requires p.Valid()
  {
    0 <= n <= |batch| && ClearPhase(batch, n, p, from, 16) && PaintPhase(batch, n, to, 16)
  }

  /** A shift's batch names only board cells of the old footprint or the new box. */
  lemma ShiftBatchFootprint(batch: CellChanges, n: int, p: Piece, from: Pos, to: Pos)
    requires p.Valid() && ShiftBatch(batch, n, p, from, to)
    ensures forall c | c in batch :: InBounds(c.x, c.y) && (Covers(p, from, c.x, c.y) || InBox(to, c.x, c.y))
  {
    forall c | c in batch
      ensures InBounds(c.x, c.y) && (Covers(p, from, c.x, c.y) || InBox(to, c.x, c.y))
    {
      var k :| 0 <= k < |batch| && batch[k] == c;
    }
  }

  /** The batch of a shift of p from `from` to `to`: a clear phase followed by a paint phase. */
  ghost predicate TwoPhase(batch: CellChanges, p: Piece, from: Pos, to: Pos)
    requires p.Valid()
  {
    exists n :: ShiftBatch(batch, n, p, from, to)
  }

  /**
   * The batch reports every coloured cell of p's footprint at `from` on the
   * board `before` as cleared.
   */
  ghost predicate ReportsClears(before: Grid, batch: CellChanges, p: Piece, from: Pos)
    requires WellSized(before) && p.Valid()
  {
    forall x, y | InBounds(x, y) && Covers(p, from, x, y) && before[x][y].Some? :: CellChange(x, y, None) in batch
  }

  /** The batches of several shifts, in emission order, as one sequence of changes. */
  function Flatten(batches: seq<CellChanges>): CellChanges
    decreases |batches|
  {
    if batches == [] then [] else Flatten(batches[..|batches| - 1]) + batches[|batches| - 1]
  }

  /**
   * When each batch replays the board before it to the board after it, all
   * the batches together, in emission order, replay the first board to the
   * last.
   */
  lemma {:induction false} FlattenReplays(batches: seq<CellChanges>, boards: seq<Grid>)
    requires |boards| == |batches| + 1 && forall k | 0 <= k < |boards| :: WellSized(boards[k])
    requires forall k | 0 <= k < |batches| :: Replayed(boards[k], batches[k], boards[k + 1])
    ensures Replayed(boards[0], Flatten(batches), boards[|batches|])
    decreases |batches|
  {
    var n := |batches|;
    if n > 0 {
      var init, gs := batches[..n - 1], boards[..n];
      assert forall k | 0 <= k < n :: gs[k] == boards[k];
      assert forall k | 0 <= k < n - 1 :: init[k] == batches[k];
      FlattenReplays(init, gs);
      assert Replayed(boards[n - 1], batches[n - 1], boards[n]);
      forall x, y | InBounds(x, y)
        ensures boards[n][x][y] == ValueAfter(Flatten(batches), x, y, boards[0][x][y])
      {
        ValueAfterConcat(Flatten(init), batches[n - 1], x, y, boards[0][x][y]);
      }
    }
  }

  // ---------------------------------------------------------------------
  // Keys and pieces

  /** The shift a key press asks for: Left, Right and Down move by one cell; any other key asks for none. */
  function KeyShift(key: Key): (m: Option<Movement>)
    ensures m.Some? <==> !key.Other?
    ensures key.Left? ==> m == Some(Movement(-1, 0))
    ensures key.Right? ==> m == Some(Movement(1, 0))
    ensures key.Down? ==> m == Some(Movement(0, -1))
    ensures m.Some? ==> m.value.dy <= 0 && (m.value.dx == 0) != (m.value.dy == 0)
  {
    match key
    case Left => Some(Movement(-1, 0))
    case Right => Some(Movement(1, 0))
    case Down => Some(Movement(0, -1))
    case Other(_) => None
  }

  /** The only piece the game spawns: a J-like shape in dark blue. */
  function GetNewPiece(): (p: Piece)
    ensures p.Valid() && |p.mask| == 16 && p.color == DarkBlue
    ensures forall i | 0 <= i < 16 :: p.mask[i] <==> i == 0 || i == 4 || i == 8 || i == 9
  {
    Piece([true, false, false, false,
           true, false, false, false,
           true, true, false, false,
           false, false, false, false], DarkBlue)
  }

  /**
   * Where the spawned piece paints its box: its column origin.x from row
   * origin.y up three rows, and the cell right of the top one, in dark blue;
   * the other cells of the box become empty.
   */
  lemma JShape(origin: Pos, x: int, y: int)
    requires InBox(origin, x, y)
    ensures Paint(GetNewPiece(), BoxIndex(origin, x, y))
            == if (x == origin.x && y <= origin.y + 2) || (x == origin.x + 1 && y == origin.y + 2)
               then Some(DarkBlue) else None
  {
  }

  // ---------------------------------------------------------------------
  // One fall of the spawned piece

  /**
   * What cell (x, y), which held `before`, holds once the spawned piece has
   * fallen from row 18 down to `row` in column 5: the piece's box at
   * (5, row) is painted, the cells of columns 5 to 8 above that box are
   * empty, and every other cell is as it was.
   */
  function FallenValue(row: int, x: int, y: int, before: Option<Color>): Option<Color> {
    if 5 <= x < 9 && row <= y then
      (if y < row + 4 then Paint(GetNewPiece(), BoxIndex(Pos(5, row), x, y)) else None)
    else before
  }

  /** Every cell of `after` is what FallenValue gives for the same cell of `before`. */
  ghost predicate Fallen(before: Grid, after: Grid, row: int)
    requires WellSized(before) && WellSized(after)
  {
    forall x, y | InBounds(x, y) :: after[x][y] == FallenValue(row, x, y, before[x][y])
  }

  /** Every board of the sequence is a whole board. */
  ghost predicate AllWellSized(boards: seq<Grid>) {
    forall k | 0 <= k < |boards| :: WellSized(boards[k])
  }

  /**
   * The boards of a fall: boards[k + 1] is boards[k] after the spawned piece
   * has shifted down one row, from (5, 18 - k) to (5, 17 - k). Stated from
   * the last shift backwards, one shift per unfolding.
   */
  ghost predicate FallChain(boards: seq<Grid>)
    decreases |boards|
  {
    if |boards| <= 1 then true
    else
      var n := |boards|;
      && FallChain(boards[..n - 1])
      && WellSized(boards[n - 2]) && WellSized(boards[n - 1])
      && Shifted(boards[n - 2], boards[n - 1], GetNewPiece(), Pos(5, 20 - n), Pos(5, 19 - n))
  }

  /** Shift k of a fall chain moves the piece from (5, 18 - k) down to (5, 17 - k). */
  lemma {:induction false} FallChainAt(boards: seq<Grid>, k: int)
    requires AllWellSized(boards) && FallChain(boards) && 0 <= k < |boards| - 1
    ensures Shifted(boards[k], boards[k + 1], GetNewPiece(), Pos(5, 18 - k), Pos(5, 17 - k))
    decreases |boards|
  {
    var n := |boards|;
    if k < n - 2 {
      var init := boards[..n - 1];
      assert init[k] == boards[k] && init[k + 1] == boards[k + 1];
      assert forall j | 0 <= j < n - 1 :: init[j] == boards[j];
      FallChainAt(init, k);
    }
  }

  /** A chain of shifts extended by one more downward shift. */
  lemma FallChainSnoc(boards: seq<Grid>, next: Grid)
    requires 1 <= |boards| && FallChain(boards) && WellSized(boards[|boards| - 1]) && WellSized(next)
    requires Shifted(boards[|boards| - 1], next, GetNewPiece(), Pos(5, 19 - |boards|), Pos(5, 18 - |boards|))
    ensures FallChain(boards + [next])
  {
    var all := boards + [next];
    assert all[..|boards|] == boards;
    assert all[|boards| - 1] == boards[|boards| - 1] && all[|boards|] == next;
  }

  /**
   * What the first |batches| shifts of a fall record: the boards around
   * them form a FallChain, batch k replays boards[k] to boards[k + 1] with
   * effective changes only, and it names only board cells in the footprint
   * at (5, 18 - k) or the box at (5, 17 - k).
   */
  ghost predicate FallRecord(batches: seq<CellChanges>, boards: seq<Grid>) {
    && |boards| == |batches| + 1
    && AllWellSized(boards)
    && FallChain(boards)
    && FallReplays(batches, boards)
  }

  /** Batch k replays boards[k] to boards[k + 1], with effective changes only. */
  ghost predicate FallReplays(batches: seq<CellChanges>, boards: seq<Grid>)
    requires |boards| == |batches| + 1 && AllWellSized(boards)
  {
    forall k | 0 <= k < |batches| ::
      Replayed(boards[k], batches[k], boards[k + 1]) && Effective(boards[k], batches[k])
  }

  /** Shift k of a fall first clears the footprint at (5, 18 - k), then paints the box at (5, 17 - k). */
  ghost predicate FallPhases(batches: seq<CellChanges>) {
    forall k | 0 <= k < |batches| :: TwoPhase(batches[k], GetNewPiece(), Pos(5, 18 - k), Pos(5, 17 - k))
  }

  /** Batch k of a fall reports every coloured cell of the footprint at (5, 18 - k) on boards[k] as cleared. */
  ghost predicate FallClears(batches: seq<CellChanges>, boards: seq<Grid>)
    requires |boards| == |batches| + 1 && AllWellSized(boards)
  {
    forall k | 0 <= k < |batches| :: ReportsClears(boards[k], batches[k], GetNewPiece(), Pos(5, 18 - k))
  }

  /** Batch k of a fall names only board cells of the footprint at (5, 18 - k) or the box at (5, 17 - k). */
  lemma FallBatchOnBoard(batches: seq<CellChanges>, k: int)
    requires FallPhases(batches) && 0 <= k < |batches|
    ensures forall c | c in batches[k] ::
              InBounds(c.x, c.y) && (Covers(GetNewPiece(), Pos(5, 18 - k), c.x, c.y) || InBox(Pos(5, 17 - k), c.x, c.y))
  {
    var n :| ShiftBatch(batches[k], n, GetNewPiece(), Pos(5, 18 - k), Pos(5, 17 - k));
    ShiftBatchFootprint(batches[k], n, GetNewPiece(), Pos(5, 18 - k), Pos(5, 17 - k));
  }

  /** Replay facts for n shifts, extended by those of the (n + 1)-th. */
  lemma FallReplaysSnoc(batches: seq<CellChanges>, boards: seq<Grid>, batch: CellChanges, next: Grid)
    requires |boards| == |batches| + 1 && AllWellSized(boards) && WellSized(next)
    requires FallReplays(batches, boards)
    requires Replayed(boards[|batches|], batch, next) && Effective(boards[|batches|], batch)
    ensures AllWellSized(boards + [next]) && FallReplays(batches + [batch], boards + [next])
  {
    var n := |batches|;
    var bs, gs := batches + [batch], boards + [next];
    assert forall k | 0 <= k <= n :: gs[k] == boards[k];
    forall k | 0 <= k <= n
      ensures Replayed(gs[k], bs[k], gs[k + 1]) && Effective(gs[k], bs[k])
    {
      if k < n {
        assert bs[k] == batches[k] && gs[k + 1] == boards[k + 1];
      }
    }
  }

  /** Batch shapes for n shifts, extended by that of the (n + 1)-th. */
  lemma FallPhasesSnoc(batches: seq<CellChanges>, batch: CellChanges, split: int)
    requires FallPhases(batches)
    requires ShiftBatch(batch, split, GetNewPiece(), Pos(5, 18 - |batches|), Pos(5, 17 - |batches|))
    ensures FallPhases(batches + [batch])
  {
    var bs := batches + [batch];
    assert TwoPhase(batch, GetNewPiece(), Pos(5, 18 - |batches|), Pos(5, 17 - |batches|));
    forall k | 0 <= k <= |batches|
      ensures TwoPhase(bs[k], GetNewPiece(), Pos(5, 18 - k), Pos(5, 17 - k))
    {
      if k < |batches| {
        assert bs[k] == batches[k];
      }
    }
  }

  /** Clear reports for n shifts, extended by that of the (n + 1)-th. */
  lemma FallClearsSnoc(batches: seq<CellChanges>, boards: seq<Grid>, batch: CellChanges, next: Grid)
    requires |boards| == |batches| + 1 && AllWellSized(boards) && WellSized(next)
    requires FallClears(batches, boards)
    requires ReportsClears(boards[|batches|], batch, GetNewPiece(), Pos(5, 18 - |batches|))
    ensures AllWellSized(boards + [next]) && FallClears(batches + [batch], boards + [next])
  {
    var bs, gs := batches + [batch], boards + [next];
    forall k | 0 <= k <= |batches|
      ensures ReportsClears(gs[k], bs[k], GetNewPiece(), Pos(5, 18 - k))
    {
      assert gs[k] == boards[k];
      if k < |batches| {
        assert bs[k] == batches[k];
      }
    }
  }

  /** A record of n shifts extended by the (n + 1)-th downward shift, its batch and the board after it. */
  lemma FallRecordSnoc(batches: seq<CellChanges>, boards: seq<Grid>, batch: CellChanges, next: Grid)
    requires FallRecord(batches, boards) && WellSized(next)
    requires var n, last := |batches|, boards[|batches|];
             && Shifted(last, next, GetNewPiece(), Pos(5, 18 - n), Pos(5, 17 - n))
             && Replayed(last, batch, next) && Effective(last, batch)
    ensures FallRecord(batches + [batch], boards + [next])
  {
    FallChainSnoc(boards, next);
    FallReplaysSnoc(batches, boards, batch, next);

  }

  /**
   * The first shift of a fall, from the spawn row 18 to row 17: the spawned
   * piece's footprint lies inside its new box, so only that box changes.
   */
  lemma FallStart(before: Grid, after: Grid)
    requires WellSized(before) && WellSized(after)
    requires Shifted(before, after, GetNewPiece(), Pos(5, 18), Pos(5, 17))
    ensures Fallen(before, after, 17)
  {
  }

  /**
   * One more downward shift keeps a fallen board fallen, one row lower: the
   * old footprint lies inside the new box, and the top row of the old box,
   * which the new box leaves, was painted empty.
   */
  lemma FallStep(before: Grid, mid: Grid, after: Grid, row: int)
    requires WellSized(before) && WellSized(mid) && WellSized(after)
    requires Fallen(before, mid, row)
    requires Shifted(mid, after, GetNewPiece(), Pos(5, row), Pos(5, row - 1))
    ensures Fallen(before, after, row - 1)
  {
  }

  /**
   * A chain of downward shifts from the spawn row 18 leaves the board fallen
   * to row 19 - |boards|; after the 18 shifts of a game-loop pass, to row 0.
   */
  lemma {:induction false} FallCycle(boards: seq<Grid>)
    requires 2 <= |boards| && AllWellSized(boards) && FallChain(boards)
    ensures Fallen(boards[0], boards[|boards| - 1], 19 - |boards|)
    decreases |boards|
  {
    var n := |boards|;
    if n == 2 {
      FallStart(boards[0], boards[1]);
    } else {
      var init := boards[..n - 1];
      assert forall k | 0 <= k < n - 1 :: init[k] == boards[k];
      FallCycle(init);
      FallStep(boards[0], boards[n - 2], boards[n - 1], 20 - n);
    }
  }

  // ---------------------------------------------------------------------
  // The board

  /**
   * One step of the clear loop keeps its bookkeeping: `recorded` extends
   * `prev` by at most the clearing of the masked cell at mask index i.
   */
  lemma ClearPhaseStep(prev: CellChanges, recorded: CellChanges, piece: Piece, from: Pos, i: int)
    requires piece.Valid() && 0 <= i < 16 && piece.mask[i] && ClearPhase(prev, |prev|, piece, from, i)
    requires recorded == prev ||
             (InBounds(BoxCell(from, i).x, BoxCell(from, i).y) &&
              recorded == prev + [CellChange(BoxCell(from, i).x, BoxCell(from, i).y, None)])
    ensures ClearPhase(recorded, |recorded|, piece, from, i + 1)
  {
  }

  /**
   * One step of the paint loop keeps its bookkeeping: `recorded` extends
   * `prev` by at most the change of the cell at mask index i of the box.
   */
  lemma PaintPhaseStep(changes: CellChanges, prev: CellChanges, recorded: CellChanges, to: Pos, i: int)
    requires 0 <= i < 16 && |changes| <= |prev| && prev[..|changes|] == changes && PaintPhase(prev, |changes|, to, i)
    requires recorded == prev ||
             (|recorded| == |prev| + 1 && recorded[..|prev|] == prev && InBounds(recorded[|prev|].x, recorded[|prev|].y) &&
              recorded[|prev|].x == BoxCell(to, i).x && recorded[|prev|].y == BoxCell(to, i).y)
    ensures |changes| <= |recorded| && recorded[..|changes|] == changes && PaintPhase(recorded, |changes|, to, i + 1)
  {
    if recorded != prev {
      assert recorded[..|changes|] == prev[..|changes|];
    }
  }

  class GameBoard {
    const cells: array2<Option<Color>>
    var currentPiece: Option<Piece>
    var position: Pos

    ghost predicate Valid()
      reads this
    {
      && cells.Length0 == BoardSizeX && cells.Length1 == BoardSizeY
      && (currentPiece.Some? ==> currentPiece.value.Valid())
    }

    /** An empty board but for the four seed cells of row 0; no piece yet. */
    constructor ()
      ensures Valid() && fresh(cells)
      ensures currentPiece == None && position == Pos(5, 15)
      ensures cells[0, 0] == Some(Red) && cells[1, 0] == Some(Cyan)
      ensures cells[2, 0] == Some(Yellow) && cells[3, 0] == Some(Red)
      ensures forall x, y | InBounds(x, y) && (y != 0 || x > 3) :: cells[x, y] == None
    {
      cells := new Option<Color>[BoardSizeX, BoardSizeY]((x, y) => None);
      currentPiece := None;
      position := Pos(5, 15);
      new;
      cells[0, 0] := Some(Red);
      cells[1, 0] := Some(Cyan);
      cells[2, 0] := Some(Yellow);
      cells[3, 0] := Some(Red);
    }

    /** The board as a value: column x, row y holds cells[x, y]. */
    ghost function Snapshot(): (g: Grid)
      requires cells.Length0 == BoardSizeX && cells.Length1 == BoardSizeY
      reads cells
      ensures WellSized(g) && forall x, y | InBounds(x, y) :: g[x][y] == cells[x, y]
    {
      seq(BoardSizeX, x requires 0 <= x < cells.Length0 reads cells =>
        seq(BoardSizeY, y requires 0 <= y < cells.Length1 reads cells => cells[x, y]))
    }

    /** Replaying changes on the board `before` gives the board as it is now. */
    ghost predicate Replays(before: Grid, changes: CellChanges)
      requires Valid() && WellSized(before)
      reads this, cells
    {
      forall x, y | InBounds(x, y) :: cells[x, y] == ValueAfter(changes, x, y, before[x][y])
    }

    /**
     * Sets one cell and records the change: a target off the board is
     * skipped, and a change is recorded only when the value differs. When
     * the changes so far replay `before` to the current board and each of
     * them was effective, both stay true with the recorded one.
     */
    method SetCell(x: int, y: int, color: Option<Color>, changes: CellChanges, ghost before: Grid)
      returns (recorded: CellChanges)
      requires Valid() && WellSized(before) && Replays(before, changes) && Effective(before, changes)
      modifies cells
      ensures recorded == if InBounds(x, y) && old(cells[x, y]) != color
                          then changes + [CellChange(x, y, color)] else changes
      ensures forall i, j | InBounds(i, j) :: cells[i, j] == if i == x && j == y then color else old(cells[i, j])
      ensures Replays(before, recorded) && Effective(before, recorded)
    {
      recorded := changes;
      if x < 0 || x >= BoardSizeX || y < 0 || y >= BoardSizeY {
        return;
      }
      if cells[x, y] != color {
        var change := CellChange(x, y, color);
        EffectiveSnoc(before, changes, change);
        ValueAfterSnoc(changes, change);
        recorded := changes + [change];
        cells[x, y] := color;
      }
    }

    /**
     * Clears the piece's footprint, moves it by m, and repaints its whole
     * 4 x 4 box at the new position, returning the batch of changes.
     */
    method ShiftCurrentPiece(m: Movement) returns (batch: CellChanges, ghost split: nat)
      requires Valid() && currentPiece.Some?
      modifies this`position, cells
      ensures Valid()
      ensures position == Pos(old(position).x + m.dx, old(position).y + m.dy)
      // the new box is painted, the rest of the old footprint cleared, every other cell kept
      ensures Shifted(old(Snapshot()), Snapshot(), currentPiece.value, old(position), position)
      // replaying the batch on the old board gives the new board, and every
      // recorded change differs from the value its cell held just before it
      ensures Replayed(old(Snapshot()), batch, Snapshot()) && Effective(old(Snapshot()), batch)
      // first the footprint is cleared, then the new box is painted, each cell at most once per phase
      ensures ShiftBatch(batch, split, currentPiece.value, old(position), position)
      // every coloured cell of the old footprint is reported cleared, even where the new box repaints it
      ensures ReportsClears(old(Snapshot()), batch, currentPiece.value, old(position))
    {
      ghost var before := Snapshot();
      var piece := currentPiece.value;
      var from := position;
      var cleared := ClearFootprint(piece, from, before);
      label Cleared:
      position := Pos(position.x + m.dx, position.y + m.dy);
      batch := PaintBox(piece, position, cleared, before);
      split := |cleared|;
      assert ShiftBatch(batch, split, piece, from, position) by {
        forall k | 0 <= k < |cleared|
          ensures batch[k] == cleared[k]
        {
          assert batch[..|cleared|][k] == batch[k];
        }
      }

      forall x, y | InBounds(x, y) && Covers(piece, from, x, y) && before[x][y].Some?
        ensures CellChange(x, y, None) in batch
      {
        assert old@Cleared(cells[x, y]) == None == ValueAfter(cleared, x, y, before[x][y]);
        ChangedCellIsReported(cleared, x, y, before[x][y]);
      }
    }

    /**
     * The first loop of a shift: every masked cell of the piece's box at
     * from that lies on the board is set to empty.
     */
    method ClearFootprint(piece: Piece, from: Pos, ghost before: Grid) returns (changes: CellChanges)
      requires Valid() && piece.Valid() && WellSized(before) && Replays(before, [])
      modifies cells
      ensures forall x, y | InBounds(x, y) :: cells[x, y] == if Covers(piece, from, x, y) then None else old(cells[x, y])
      ensures ClearPhase(changes, |changes|, piece, from, 16)
      ensures Replays(before, changes) && Effective(before, changes)
    {
      changes := [];
      for i := 0 to 16
        invariant forall x, y | InBounds(x, y) ::
                    cells[x, y] == if Covers(piece, from, x, y) && BoxIndex(from, x, y) < i then None else old(cells[x, y])
        invariant ClearPhase(changes, |changes|, piece, from, i)
        invariant Replays(before, changes) && Effective(before, changes)
      {
        if piece.mask[i] {
          var cell := BoxCell(from, i);
          ghost var prev := changes;
          changes := SetCell(cell.x, cell.y, None, changes, before);
          ClearPhaseStep(prev, changes, piece, from, i);
        }
      }
    }

    /**
     * The second loop of a shift: every cell of the piece's box at to that
     * lies on the board gets the piece colour where the mask is set and
     * becomes empty elsewhere; the changes are appended to `changes`.
     */
    method PaintBox(piece: Piece, to: Pos, changes: CellChanges, ghost before: Grid) returns (recorded: CellChanges)
      requires Valid() && piece.Valid() && WellSized(before) && Replays(before, changes) && Effective(before, changes)
      modifies cells
      ensures forall x, y | InBounds(x, y) ::
                cells[x, y] == if InBox(to, x, y) then Paint(piece, BoxIndex(to, x, y)) else old(cells[x, y])
      ensures |changes| <= |recorded| && recorded[..|changes|] == changes && PaintPhase(recorded, |changes|, to, 16)
      ensures Replays(before, recorded) && Effective(before, recorded)
    {
      recorded := changes;
      for i := 0 to 16
        invariant forall x, y | InBounds(x, y) ::
                    cells[x, y] == if InBox(to, x, y) && BoxIndex(to, x, y) < i then Paint(piece, BoxIndex(to, x, y))
                                   else old(cells[x, y])
        invariant |changes| <= |recorded| && recorded[..|changes|] == changes && PaintPhase(recorded, |changes|, to, i)
        invariant Replays(before, recorded) && Effective(before, recorded)
      {
        var cell := BoxCell(to, i);
        ghost var prev := recorded;
        recorded := SetCell(cell.x, cell.y, Paint(piece, i), recorded, before);
        PaintPhaseStep(changes, prev, recorded, to, i);
      }
    }

    /**
     * Left, Right and Down shift the piece by one cell and emit that shift's
     * batch; every other key changes nothing and emits nothing.
     */
    method HandleKeyPress(key: Key) returns (batch: Option<CellChanges>)
      requires Valid() && (KeyShift(key).Some? ==> currentPiece.Some?)
      modifies this`position, cells
      ensures Valid()
      ensures batch.Some? <==> KeyShift(key).Some?
      ensures KeyShift(key).None? ==> position == old(position)
      ensures KeyShift(key).Some? ==>
                position == Pos(old(position).x + KeyShift(key).value.dx, old(position).y + KeyShift(key).value.dy)
      ensures KeyShift(key).Some? ==> Shifted(old(Snapshot()), Snapshot(), currentPiece.value, old(position), position)
      ensures batch.Some? ==> forall c | c in batch.value ::
                InBounds(c.x, c.y) && (Covers(currentPiece.value, old(position), c.x, c.y) || InBox(position, c.x, c.y))
      ensures batch.Some? ==> Effective(old(Snapshot()), batch.value)
      ensures batch.Some? ==> TwoPhase(batch.value, currentPiece.value, old(position), position)
      // every coloured cell of the old footprint is reported cleared, even where the new box repaints it
      ensures batch.Some? ==> ReportsClears(old(Snapshot()), batch.value, currentPiece.value, old(position))
      ensures forall x, y | InBounds(x, y) ::
                cells[x, y] == if batch.Some? then ValueAfter(batch.value, x, y, old(cells[x, y])) else old(cells[x, y])
    {
      var m := KeyShift(key);
      if m.Some? {
        var b, split := ShiftCurrentPiece(m.value);
        ShiftBatchFootprint(b, split, currentPiece.value, old(position), position);
        batch := Some(b);
      } else {
        batch := None;
      }
    }

    /**
     * One pass of the game loop: spawn the piece at (5, 18) and shift it
     * down one row at a time until its origin reaches row 0. Returns the
     * batches in emission order and, as ghost, the board before and after
     * each shift.
     */
    method StartCycle() returns (batches: seq<CellChanges>, ghost boards: seq<Grid>)
      requires Valid()
      modifies this`currentPiece, this`position, cells
      ensures Valid() && currentPiece == Some(GetNewPiece()) && position == Pos(5, 0)
      // shift k moves the piece from (5, 18 - k) down to (5, 17 - k), and its
      // batch replays the board before it to the board after it
      ensures |batches| == 18 && FallRecord(batches, boards)
      // shift k first clears the footprint at (5, 18 - k), then paints the box at (5, 17 - k)
      ensures FallPhases(batches)
      // and reports every coloured cell of that footprint on boards[k] as cleared
      ensures FallClears(batches, boards)
      ensures boards[0] == old(Snapshot()) && boards[18] == Snapshot()
      ensures forall x, y | InBounds(x, y) :: cells[x, y] == ValueAfter(Flatten(batches), x, y, old(cells[x, y]))
      // the piece rests with its box at (5, 0), and columns 5 to 8 above it are empty: see JShape
      ensures forall x, y | InBounds(x, y) :: cells[x, y] == FallenValue(0, x, y, old(cells[x, y]))
    {
      currentPiece := Some(GetNewPiece());
      position := Pos(5, 18);
      batches, boards := [], [Snapshot()];
      // the loop body runs once before the test, as in a do-while loop
      while batches == [] || position.y > 0
        invariant Valid() && currentPiece == Some(GetNewPiece())
        invariant 0 <= |batches| <= 18 && position == Pos(5, 18 - |batches|)
        invariant FallRecord(batches, boards) && boards[0] == old(Snapshot()) && boards[|batches|] == Snapshot()
        invariant FallPhases(batches) && FallClears(batches, boards)
        decreases position.y
      {
        ghost var n, last := |batches|, Snapshot();
        var batch, split := ShiftCurrentPiece(Movement(0, -1));
        ghost var next := Snapshot();
        FallRecordSnoc(batches, boards, batch, next);
        FallPhasesSnoc(batches, batch, split);
        FallClearsSnoc(batches, boards, batch, next);
        batches := batches + [batch];
        boards := boards + [next];
      }
      FallCycle(boards);
      FlattenReplays(batches, boards);
    }
  }
}

=== FILE: game_board_view_model.dfy ===
/**
 * The view side of the board: one view cell per board cell, kept in a flat
 * array indexed x + 10 * y, placed on screen in a 21-pixel grid, and updated
 * from the batches of changes that the board emits.
 */
module ViewModels {

  import opened Wrappers
  import opened Colors
  import opened Models

  const CellSize := 20

  /** How a board value is shown: its colour, or dark gray for an empty cell. */
  function Display(value: Option<Color>): Color {
    match value
    case Some(c) => c
    case None => DarkGray
  }

  /** The slot of board cell (x, y) in the flat array of view cells. */
  function CellIndex(x: int, y: int): (k: int)
    ensures InBounds(x, y) ==> 0 <= k < BoardSizeX * BoardSizeY && k % BoardSizeX == x && k / BoardSizeX == y
  {
    x + BoardSizeX * y
  }

  /** Every slot of the flat array belongs to exactly one board cell. */
  lemma CellIndexOnto(k: int)
    requires 0 <= k < BoardSizeX * BoardSizeY
    ensures InBounds(k % BoardSizeX, k / BoardSizeX) && CellIndex(k % BoardSizeX, k / BoardSizeX) == k
    ensures forall x, y | InBounds(x, y) && CellIndex(x, y) == k :: x == k % BoardSizeX && y == k / BoardSizeX
  {
  }

  /** The left pixel coordinate of column x. */
  function PixelX(x: int): int {
    x * (CellSize + 1)
  }

  /** The top pixel coordinate of row y: row 0 is drawn lowest. */
  function PixelY(y: int): int {
    (BoardSizeY - y) * (CellSize + 1)
  }

  /**
   * Board cells are placed at X in [0, 189] and Y in [21, 420], distinct
   * cells get disjoint CellSize x CellSize squares, and a higher row gets a
   * smaller Y.
   */
  lemma LayoutSeparatesCells(x: int, y: int, x': int, y': int)
    requires InBounds(x, y) && InBounds(x', y') && (x, y) != (x', y')
    ensures 0 <= PixelX(x) <= (BoardSizeX - 1) * (CellSize + 1)
    ensures CellSize + 1 <= PixelY(y) <= BoardSizeY * (CellSize + 1)
    ensures PixelX(x) + CellSize < PixelX(x') || PixelX(x') + CellSize < PixelX(x) ||
            PixelY(y) + CellSize < PixelY(y') || PixelY(y') + CellSize < PixelY(y)
    ensures y < y' ==> PixelY(y') < PixelY(y)
  {
  }

  /**
   * The colour view slot k shows after the changes of batch are applied in
   * order to slot k = x + 10 * y of each change, starting from `before`.
   */
  function ViewAfter(batch: CellChanges, k: int, before: Color): Color
    decreases |batch|
  {
    if batch == [] then before
    else
      var last := batch[|batch| - 1];
      if CellIndex(last.x, last.y) == k then Display(last.color)
      else ViewAfter(batch[..|batch| - 1], k, before)
  }

  /** A slot that no change of the batch names keeps its colour. */
  lemma {:induction false} ViewAfterUntouched(batch: CellChanges, k: int, before: Color)
    requires forall c | c in batch :: CellIndex(c.x, c.y) != k
    ensures ViewAfter(batch, k, before) == before
    decreases |batch|
  {
    if batch != [] {
      assert batch[|batch| - 1] in batch;
      ViewAfterUntouched(batch[..|batch| - 1], k, before);
    }
  }

  /** The last change that names a slot decides its colour: later entries win. */
  lemma {:induction false} ViewAfterLastWins(batch: CellChanges, i: int, before: Color)
    requires 0 <= i < |batch|
    requires forall j | i < j < |batch| :: CellIndex(batch[j].x, batch[j].y) != CellIndex(batch[i].x, batch[i].y)
    ensures ViewAfter(batch, CellIndex(batch[i].x, batch[i].y), before) == Display(batch[i].color)
    decreases |batch|
  {
    if i < |batch| - 1 {
      var init := batch[..|batch| - 1];
      assert init[i] == batch[i];
      ViewAfterLastWins(init, i, before);
    }
  }

  /**
   * The view does no bounds check of its own: a change off the board, such
   * as (10, 0), lands on the slot of another cell, (0, 1), which the board
   * replay leaves alone. Hence the mirror depends on the board naming only
   * board cells.
   */
  lemma OffBoardChangeAliases()
    ensures !InBounds(10, 0) && CellIndex(10, 0) == CellIndex(0, 1)
    ensures ViewAfter([CellChange(10, 0, Some(Red))], CellIndex(0, 1), Display(None)) == Red
    ensures Display(ValueAfter([CellChange(10, 0, Some(Red))], 0, 1, None)) == DarkGray
  {
  }

  /**
   * For a batch that names only board cells, updating the flat view slot by
   * slot shows the board value that replaying the batch gives.
   */
  lemma {:induction false} MirrorStep(batch: CellChanges, x: int, y: int, before: Option<Color>)
    requires forall c | c in batch :: InBounds(c.x, c.y)
    requires InBounds(x, y)
    ensures ViewAfter(batch, CellIndex(x, y), Display(before)) == Display(ValueAfter(batch, x, y, before))
    decreases |batch|
  {
    if batch != [] {
      var last := batch[|batch| - 1];
      assert last in batch;
      MirrorStep(batch[..|batch| - 1], x, y, before);
    }
  }

  /** One on-screen cell: its pixel position, its colour and a count of colour notifications. */
  class CellViewModel {
    var X: int
    var Y: int
    var color: Color
    /** How many times a colour change has been notified. */
    var notifications: nat

    constructor (x: int, y: int)
      ensures X == x && Y == y && color == DarkGray && notifications == 0
    {
      X := x;
      Y := y;
      color := DarkGray;
      notifications := 0;
    }

    /** Setting the colour it already has does nothing; otherwise it changes and notifies once. */
    method SetColor(value: Color)
      modifies this`color, this`notifications
      ensures color == value
      ensures notifications == if value == old(color) then old(notifications) else old(notifications) + 1
    {
      if value == color {
        return;
      }
      color := value;
      notifications := notifications + 1;
    }
  }

  class GameBoardViewModel {
    const model: GameBoard
    const cells: array<CellViewModel?>
    /** The view cells in the array. */
    ghost var Views: set<CellViewModel>

    ghost predicate Valid()
      reads this, model, cells, Views
    {
      && model.Valid()
      && cells.Length == BoardSizeX * BoardSizeY
      && (forall k | 0 <= k < cells.Length :: cells[k] != null && cells[k] in Views)
      && (forall j, k | 0 <= j < k < cells.Length :: cells[j] != cells[k])
      && (forall x, y | InBounds(x, y) ::
            cells[CellIndex(x, y)].X == PixelX(x) && cells[CellIndex(x, y)].Y == PixelY(y))
    }

    /** Every view cell shows the colour of its board cell, dark gray when that is empty. */
    ghost predicate Mirrors()
      requires Valid()
      reads this, model, model.cells, cells, Views
    {
      forall x, y | InBounds(x, y) :: cells[CellIndex(x, y)].color == Display(model.cells[x, y])
    }

    /** A fresh board and one view cell per board cell, mirroring it. */
    constructor ()
      ensures Valid() && Mirrors() && fresh(model) && fresh(model.cells) && fresh(cells) && fresh(Views)
      ensures model.currentPiece == None && model.position == Pos(5, 15)
      ensures model.cells[0, 0] == Some(Red) && model.cells[1, 0] == Some(Cyan)
      ensures model.cells[2, 0] == Some(Yellow) && model.cells[3, 0] == Some(Red)
      ensures forall x, y | InBounds(x, y) && (y != 0 || x > 3) :: model.cells[x, y] == None
      // so the view shows Red, Cyan, Yellow, Red at the left of row 0 and dark gray elsewhere
      ensures forall x, y | InBounds(x, y) ::
                cells[CellIndex(x, y)].color == if y == 0 && x < 4 then [Red, Cyan, Yellow, Red][x] else DarkGray
    {
      model := new GameBoard();
      cells := new CellViewModel?[BoardSizeX * BoardSizeY](_ => null);
      Views := {};
      new;
      CreateCellViewModels();
    }

    /**
     * Fills slot x + 10 * y with a view cell placed at column x, row y and
     * showing board cell (x, y); every slot is filled exactly once.
     */
    method CreateCellViewModels()
      requires model.Valid() && cells.Length == BoardSizeX * BoardSizeY
      modifies this`Views, cells
      ensures Valid() && Mirrors()
      // every view cell is newly created
      ensures fresh(Views - old(Views))
    {
      for x := 0 to BoardSizeX
        invariant fresh(Views - old(Views))
        invariant forall x', y' | InBounds(x', y') && x' < x ::
                    && cells[CellIndex(x', y')] != null && cells[CellIndex(x', y')] in Views
                    && cells[CellIndex(x', y')].X == PixelX(x') && cells[CellIndex(x', y')].Y == PixelY(y')
                    && cells[CellIndex(x', y')].color == Display(model.cells[x', y'])
      {
        for y := 0 to BoardSizeY
          invariant fresh(Views - old(Views))
          invariant forall x', y' | InBounds(x', y') && (x' < x || (x' == x && y' < y)) ::
                      && cells[CellIndex(x', y')] != null && cells[CellIndex(x', y')] in Views
                      && cells[CellIndex(x', y')].X == PixelX(x') && cells[CellIndex(x', y')].Y == PixelY(y')
                      && cells[CellIndex(x', y')].color == Display(model.cells[x', y'])
        {
          var cell := new CellViewModel(PixelX(x), PixelY(y));
          cell.SetColor(Display(model.cells[x, y]));
          cells[CellIndex(x, y)] := cell;
          Views := Views + {cell};
        }
      }
      forall k | 0 <= k < cells.Length
        ensures cells[k] != null && cells[k] in Views
      {
        CellIndexOnto(k);
      }
      forall j, k | 0 <= j < k < cells.Length
        ensures cells[j] != cells[k]
      {
        CellIndexOnto(j);
        CellIndexOnto(k);
      }
    }

    /**
     * Applies one batch: the slot x + 10 * y of each change, in order, takes
     * the change's colour or dark gray; slots no change names keep theirs.
     */
    method OnCellModelChanges(changes: CellChanges)
      requires Valid()
      requires forall c | c in changes :: 0 <= CellIndex(c.x, c.y) < cells.Length
      modifies Views
      ensures Valid()
      ensures forall k | 0 <= k < cells.Length :: cells[k].color == ViewAfter(changes, k, old(cells[k].color))
    {
      for i := 0 to |changes|
        invariant Valid()
        invariant forall k | 0 <= k < cells.Length :: cells[k].color == ViewAfter(changes[..i], k, old(cells[k].color))
      {
        var change := changes[i];
        assert change in changes;
        cells[CellIndex(change.x, change.y)].SetColor(Display(change.color));
        assert changes[..i + 1][..i] == changes[..i];
      }
      assert changes[..|changes|] == changes;
    }

    /** A key press shifts the piece and the view applies the batch it emits. */
    method KeyPressed(key: Key)
      requires Valid() && Mirrors()
      requires KeyShift(key).Some? ==> model.currentPiece.Some?
      modifies model`position, model.cells, Views
      ensures Valid() && Mirrors()
      ensures KeyShift(key).None? ==> model.position == old(model.position)
      ensures KeyShift(key).None? ==> forall x, y | InBounds(x, y) :: model.cells[x, y] == old(model.cells[x, y])
      ensures KeyShift(key).Some? ==>
                && model.position == Pos(old(model.position).x + KeyShift(key).value.dx,
                                         old(model.position).y + KeyShift(key).value.dy)
                && Shifted(old(model.Snapshot()), model.Snapshot(), model.currentPiece.value, old(model.position), model.position)
    {
      var batch := model.HandleKeyPress(key);
      if batch.Some? {
        OnCellModelChanges(batch.value);
        forall x, y | InBounds(x, y)
          ensures cells[CellIndex(x, y)].color == Display(model.cells[x, y])
        {
          MirrorStep(batch.value, x, y, old(model.cells[x, y]));
        }
      }
    }

    /** One pass of the game loop, with every batch it emits applied to the view in order. */
    method StartCycle()
      requires Valid() && Mirrors()
      modifies model`currentPiece, model`position, model.cells, Views
      ensures Valid() && Mirrors()
      ensures model.currentPiece == Some(GetNewPiece()) && model.position == Pos(5, 0)
      // the piece rests with its box at (5, 0), and columns 5 to 8 above it are empty
      ensures forall x, y | InBounds(x, y) :: model.cells[x, y] == FallenValue(0, x, y, old(model.cells[x, y]))
    {
      var batches, boards := model.StartCycle();
      label Cycled:
      for j := 0 to |batches|
        invariant Valid() && unchanged@Cycled(model, model.cells)
        invariant forall x, y | InBounds(x, y) :: cells[CellIndex(x, y)].color == Display(boards[j][x][y])
      {
        FallBatchOnBoard(batches, j);
        OnCellModelChanges(batches[j]);
        forall x, y | InBounds(x, y)
          ensures cells[CellIndex(x, y)].color == Display(boards[j + 1][x][y])
        {
          MirrorStep(batches[j], x, y, boards[j][x][y]);
        }
      }
    }
  }
}
